=== FILE: README.md ===
# User registration and subscriber linking

A Dafny model of the user module of a small Express/Mongoose web application. It covers two parts.

- **The users controller's middleware** (`controllers/usersController.js`). These are modelled as pure transitions over an explicit request record, `UsersController.Req`: the form body, the `:id` route parameter, `req.skip`, the queued flash messages, `res.locals.redirect`, and how the handler finished. A handler finishes in one of four ways: `next()`, `next(error)`, a redirect, or nothing at all, which leaves the request hanging. The users collection is a map from `_id` to user document.
- **The user document** (`models/user.js`). This covers the schema constraints (required name and email, unique email, zip code in [10000, 99999]), the derived `fullName`, and the pre-save hook that links a subscriber record with exactly the user's email. It also covers registration, where the email is the login username.

Modules:

- `Common`: the `Option`/`Result` types, and the string join used to combine validation messages, with a lemma that every joined part can be found in the result.
- `IntText`: two readings of integer strings. The request validator's `isInt`, with its default options, allows an optional sign and any digits, leading zeros included. The modelled `Number` cast reads the same strings. The module proves how five-character integer strings relate to the zip code range.
- `UserModel`: the document, `Violations` (the schema validator), `FullName`, `LinkSubscriber` (the pre-save hook), `Save` and `Register`.
- `UsersController`: `GetUserParams`, `Validate`, `Create`, `RedirectView`, `Logout`, `Update` and `Delete`.
- `Registration`: runs handlers the way the framework runs a route, one after the other while each calls `next()`. It contains the end-to-end lemmas for the registration route validate → create → redirectView.

Inputs from outside the request are parameters:

- the validator's email grammar (`isEmail`);
- its normaliser (`normalizeEmail` followed by `trim`);
- the subscriber directory, a function from email to found / no match / failed;
- the `_id` of the next new document;
- a failure the database may report during a registration, on the query for an existing user or on the insert;
- a failure the database may report for an update or delete.

Behaviour the model follows from the code:

- The email normaliser rewrites the body's `email` field in place before the checks run. `create` therefore registers the normalised address.
- The zip code rule is a chain of three validators (`notEmpty`, `isInt`, `isLength` 5..5) sharing one message. The validator library records one error per failing validator, so a blank zip code contributes the message three times to the joined flash. `ZipMessage in errs` holds exactly when the rule as a whole fails.
- The zip code check is on the string: five characters that form an integer. The numeric range comes only from the schema. `"+1234"` passes the request checks, becomes 1234, and is refused by the schema, so registration fails with an error flash (`SignedZipPassesValidationOnly`). The same holds for `"02134"`, which becomes 2134 (`LeadingZeroZipPassesValidationOnly`). A five-character integer lies in the schema's range exactly when it starts with a non-zero digit (`ZipCheckAgainstSchema`).
- The pre-save hook runs on every save while `subscribedAccount` is unset, not only once. A lookup that finds nothing leaves it unset, so a later save looks again. With an unchanged directory, running the hook twice gives the same result as running it once (`LinkIdempotent`).
- Registration checks, in order:
  1. a username (the email) is given;
  2. the query for a user with that email succeeds and finds none;
  3. a password is given;
  4. then it saves, which runs the schema validation, then the hook, then the insert under the unique indexes.
- `password` is not a schema path. The document does not keep it, on create or on update.
- `update` uses `findByIdAndUpdate`, which runs neither the schema validators nor the pre-save hook. Only the unique email index still applies. An unknown id makes the success callback read `_id` of `null`, which ends in `next(error)`.
- `delete` of an unknown id is not an error: it still redirects to `/users`.

## Model

| member | source | states |
|---|---|---|
| `Common.JoinContainsEach` | controllers/usersController.js:68-69 | each collected message can be found in the " and "-joined flash text |
| `IntText.IntIsDecimal` | controllers/usersController.js:60 | the strings the validator's `isInt` accepts are exactly those the modelled `Number` cast reads as an integer: an optional sign and at least one digit |
| `IntText.FiveCharIntRange` | controllers/usersController.js:60-63 | a five-character `isInt` string is in [10000, 99999] when it starts with a non-zero digit, and at most 9999 in magnitude when it starts with a sign or a zero |
| `UserModel.CastZip` | models/user.js:24-25 | an absent or empty zip code leaves the field unset; a signed decimal string becomes the number it denotes; anything else is kept as an uncastable value |
| `UserModel.Violations` | models/user.js:9-28 | the schema reports no violation exactly when first name, last name and email are non-empty and the zip code is unset or in [10000, 99999]; each violation is reported exactly when its constraint fails |
| `UserModel.FullName` | models/user.js:37-39 | when both names are set, the full name has length first + 1 + last and splits back into the first name, one space and the last name |
| `UserModel.LinkSubscriber` | models/user.js:42-60 | the hook changes only `subscribedAccount`; it fails exactly when the link is unset and the lookup fails; a set link is left as it is |
| `UserModel.LinkIgnoresLookupWhenSet` | models/user.js:44-59 | a user with a subscriber already linked is left unchanged whatever the directory holds, so no lookup takes place |
| `UserModel.LinkDependsOnlyOnEmail` | models/user.js:45-47 | the hook's outcome depends only on the directory's answer for the user's own email |
| `UserModel.LinkOutcomes` | models/user.js:45-55 | with no link yet: a found subscriber is linked, no match leaves the link empty without error, and a failed lookup is the hook's error |
| `UserModel.LinkIdempotent` | models/user.js:42-60 | running the hook on its own result changes nothing |
| `UserModel.Save` | models/user.js:7-60 | an invalid document is refused with its violations; then a failed lookup aborts with the hook's error; then a database failure aborts; then a taken id or email is a duplicate key; otherwise exactly the hook's result is stored under the new id; unique emails and valid documents are preserved |
| `UserModel.Register` | models/user.js:62-64 | registration with the email as username refuses, in this order: a missing username, a failed query, an email in use, a missing password; after these checks its outcome is the save's, so an invalid document, the hook's lookup error and an insert failure reach the caller unchanged; success stores exactly the hook's result under the new id, and happens whenever the document is valid, the id fresh, the lookup answered and the database does not fail; consistency is preserved |
| `UserModel.RegisterSameEmailTwice` | models/user.js:19-23 | after a successful registration, a second one with the same email fails with "user exists", and exactly one user has that email |
| `UsersController.GetUserParamsRoundTrip` | controllers/usersController.js:4-14 | writing the parameter record back as a body gives the original body restricted to `first`, `last`, `email`, `password`, `zipCode`: values copied unchanged, nothing added |
| `UsersController.GetUserParamsIgnoresOtherFields` | controllers/usersController.js:4-14 | body fields other than those five do not affect the parameters |
| `UsersController.NewUser` | controllers/usersController.js:40 | the new document keeps the name and email, casts the zip code as the schema does (absent or empty leaves it unset, a decimal string becomes its number), and has no subscriber linked |
| `UsersController.Sanitize` | controllers/usersController.js:55-57 | only the `email` field changes, to its normalised form; no field is added or removed |
| `UsersController.ZipErrors` | controllers/usersController.js:60-63 | the zip chain yields no message exactly when the zip code is non-empty, an integer and five characters long; otherwise one zip message per failing validator: three for an empty zip code, one for a non-empty integer of the wrong length or a non-integer of five characters, two for a non-integer of the wrong length |
| `UsersController.MessageCounts` | controllers/usersController.js:66-68 | the collected messages hold each message as often as its rule produced it, the email message first and the password message last |
| `UsersController.ValidationErrors` | controllers/usersController.js:59-64 | the email, zip code and password messages occur exactly when their rules fail; the email and password messages at most once, the zip message once per failing zip validator; the email message comes first and the password message last; no other message occurs |
| `UsersController.Validate` | controllers/usersController.js:54-76 | always continues and never touches the store; on any failure it sets `skip`, redirects to `/users/new` and appends one error flash of the messages joined with " and "; with no failure it leaves skip, flashes and redirect as they were |
| `UsersController.ValidateFlashNamesFailures` | controllers/usersController.js:66-69 | the error flash that validate adds names every failing check |
| `UsersController.ValidateAsWritten` | controllers/usersController.js:66-73 | as written, any failure stops the request without a flash, skip or redirect; with no failure it behaves like the corrected validate |
| `UsersController.ZipCheckAgainstSchema` | controllers/usersController.js:60-63 | a zip code the validators accept casts to a number, and that number lies in the schema range exactly when the string starts with a non-zero digit |
| `UsersController.Create` | controllers/usersController.js:36-53 | a skipped request continues untouched; a successful registration stores its result, adds the success flash, sets `/users` and stalls; a failed one leaves the store unchanged, adds "Failed to create user: " plus the error message, sets `/users/new` and continues; consistency is preserved |
| `UsersController.CreateContinuing` | controllers/usersController.js:36-53 | create as intended: a skipped request continues untouched; success stores the hook-linked user under the new id, adds the success flash and sets `/users`; failure keeps the store, adds the error flash and sets `/users/new`; control is passed on in every case |
| `UsersController.ValidatedBodyMeetsSchema` | controllers/usersController.js:38-40 | for a body that passes the request checks, the document built from it meets the schema exactly when both names and the email are given and the zip code starts with a non-zero digit |
| `UsersController.CreateRejectsTakenEmail` | controllers/usersController.js:42-50 | a request whose email is already registered leaves the store unchanged and reports the conflict on the form |
| `UsersController.RedirectView` | controllers/usersController.js:89-93 | redirects exactly when a redirect is set, to that path, and otherwise continues; nothing else changes |
| `UsersController.Logout` | controllers/usersController.js:83-88 | appends the success flash "You have been logged out.", redirects to `/`, continues |
| `UsersController.ApplyUpdate` | controllers/usersController.js:123-132 | an update replaces name and email, replaces the zip code by its cast value, and keeps the subscriber link |
| `UsersController.Update` | controllers/usersController.js:120-142 | a skipped request continues untouched; an uncastable zip code fails with a cast error, then a database failure is passed on, then an unknown id fails with "not found", then an email held by another user fails as a duplicate; otherwise update succeeds, changes only the document with the route's id and redirects to `/users/<id>`; every failure leaves the store and redirect unchanged |
| `UsersController.UpdateKeepsLinksAndUniqueness` | controllers/usersController.js:132-137 | update keeps the set of ids, never changes a subscriber link, and keeps emails unique |
| `UsersController.UpdateBypassesSchema` | controllers/usersController.js:132 | a consistent store can gain a document without a required name through update |
| `UsersController.Delete` | controllers/usersController.js:143-154 | without a database failure, the route's id is removed, every other document stays, and the redirect is `/users`; with one, nothing changes and the error is passed on |
| `Registration.RejectedRegistration` | controllers/usersController.js:37-73 | a request failing validation never reaches the store on either route and ends redirected to `/users/new` with one error flash naming every failed check |
| `Registration.AcceptedRegistration` | controllers/usersController.js:36-46 | a valid request whose document meets the schema, with an unused email, a fresh id, an answering directory and no database failure, stores exactly the request's user with the hook's link; the route as written then stalls, and the corrected route redirects to `/users` with the success flash |
| `Registration.DuplicateRegistration` | controllers/usersController.js:47-50 | a valid request with a registered email leaves the store unchanged and ends on `/users/new` with the conflict message |
| `Registration.AnnRegistersWith` | controllers/usersController.js:36-53 | Ann Lee's request with email "ANN@X.COM" and zip code "30301" stores her with email "ann@x.com", zip code 30301 and the directory's subscriber (if any), and redirects to `/users` |
| `Registration.AnnRegisters` | models/user.js:44-51 | with a subscriber on file under "ann@x.com" it is linked; with none the link stays empty |
| `Registration.ShortZipRejected` | controllers/usersController.js:60-73 | zip code "123" is rejected with the zip message alone, redirect `/users/new`, and nothing stored |
| `Registration.SignedZipPassesValidationOnly` | models/user.js:24-27 | zip code "+1234" passes the request checks but the schema refuses it, so registration fails and nothing is stored |
| `Registration.LeadingZeroZipPassesValidationOnly` | models/user.js:24-27 | zip code "02134" passes the request checks, is cast to 2134, and the schema refuses it, so registration fails and nothing is stored |
| `Registration.OutOfRangeZipPassesValidationOnly` | controllers/usersController.js:36-63 | on either route, a validated zip code with a sign or a leading zero ends on `/users/new` with the schema's refusal and nothing stored |
| `Registration.AsWrittenValidateStalls` | controllers/usersController.js:68-69 | as written, a request with zip code "123" stalls without redirect or flash, where the corrected validate skips creation and redirects to the form |

## Left out

- Authentication (`passport.authenticate`, the login strategy, sessions, password hashing and salts) and the session ending in `logout`. These belong to the authentication library. `Register` treats a password only as given or not given.
- The email grammar of `isEmail` and the rules of `normalizeEmail`. Both are parameters. Normalisation is applied only when the body has an `email` field.
- `login`, `index`, `indexView`, `new`, `show`, `showView` and `edit`. These only render views or fetch data for them. This includes `show`'s swallowed lookup error.
- Timestamps, `courses`, and the content of the subscriber collection. The directory is a lookup parameter.
- Concurrency: racing registrations with the same email, and a subscriber deleted between lookup and save. The model is sequential.
- Logging with `console.log`.
- `UserModel.CastZip`: it accepts only signed decimal digit strings. JavaScript's `Number()` also accepts surrounding spaces, decimals, exponents and hexadecimal.
- `UserModel.ErrorMessage`: it gives fixed texts for errors raised by the libraries (missing username, user exists, missing password, failed validation, duplicate key). The libraries' exact wording is not modelled. The texts of subscriber-lookup errors are passed through unchanged.
- `UserModel.Register`: a database failure is one optional input, raised either on the query for an existing user or on the insert. Its message is passed through. A failure while hashing the password is not modelled.
- `UsersController.Update`: a database failure, including an id that is not a valid object id, is one optional parameter. The update step does not distinguish kinds of failure beyond cast, not found and duplicate email.
- `UsersController.Delete`: a database failure is one optional parameter. The kind of failure is not modelled.
- The route wiring file is not part of this model. The registration route is taken to be validate, create, redirectView, the order in which these handlers hand over to each other.

## Findings

| source | as written | input that shows it | evidently intended | confidence | as-written member | corrected member |
|---|---|---|---|---|---|---|
| controllers/usersController.js:69 | joins `message`, a name that is not defined (line 68 defines `messages`), so the callback throws before it flashes, sets `skip` and the redirect, or calls `next`; the rejected promise is unhandled, so the request hangs, or, from Node 15 on, the process exits | any body that fails a check, e.g. zip code "123" | join line 68's `messages` with " and ", flash it, set `skip` and the redirect to `/users/new`, continue | high; not executed | `UsersController.ValidateAsWritten` (`Registration.AsWrittenValidateStalls`) | `UsersController.Validate` |
| controllers/usersController.js:43-46 | the success branch of `create` sets the flash and redirect but never calls `next()`, so `redirectView` never runs and the request gets no response | Ann Lee's valid registration | call `next()` after a successful registration too, so the request is redirected to `/users` | high; not executed | `UsersController.Create` (`Registration.AcceptedRegistration`) | `UsersController.CreateContinuing` |

The registration lemmas use the corrected `Validate`. The success lemmas use the corrected route, which runs `CreateContinuing`.

=== FILE: common.dfy ===
/** Small shared vocabulary: optional values, results, and the string join the
    controller uses to combine validation messages. */
module Common {

  /** A JavaScript value that may be `undefined`. */
  datatype Option<+T> = None | Some(value: T)

  /** The outcome of an operation that either produces a value or fails. */
  datatype Result<+T, +E> = Ok(value: T) | Err(error: E)

  /** `Array.prototype.join`: the parts with `sep` between neighbours. */
  function Join(parts: seq<string>, sep: string): string
  {
    if |parts| == 0 then ""
    else if |parts| == 1 then parts[0]
    else parts[0] + sep + Join(parts[1..], sep)
  }

  /** `t` occurs in `s` starting at index `k`. */
  ghost predicate OccursAt(t: string, s: string, k: int)
  {
    0 <= k && k + |t| <= |s| && s[k..k + |t|] == t
  }

  ghost predicate Contains(s: string, t: string)
  {
    exists k :: OccursAt(t, s, k)
  }

  /** Every part of a join can be found in the joined string. */
  lemma {:induction false} JoinContainsEach(parts: seq<string>, sep: string, i: int)
    requires 0 <= i < |parts|
    ensures Contains(Join(parts, sep), parts[i])
  {
    var j := Join(parts, sep);
    if |parts| == 1 {
      assert j[0..|parts[0]|] == parts[0];
      assert OccursAt(parts[0], j, 0);
    } else {
      var rest := Join(parts[1..], sep);
      assert j == parts[0] + sep + rest;
      if i == 0 {
        assert j[0..|parts[0]|] == parts[0];
        assert OccursAt(parts[0], j, 0);
      } else {
        JoinContainsEach(parts[1..], sep, i - 1);
        assert parts[1..][i - 1] == parts[i];
        var k :| OccursAt(parts[i], rest, k);
        var off := |parts[0]| + |sep|;
        assert j[off + k .. off + k + |parts[i]|] == rest[k .. k + |parts[i]|];
        assert OccursAt(parts[i], j, off + k);
      }
    }
  }
}

=== FILE: int_text.dfy ===
/** Integer strings as two libraries read them: the `isInt` check of the
    request validator with its default options, and the cast of a string to
    a schema `Number` field. */
module IntText {

  predicate IsDigit(c: char)
  {
    '0' <= c <= '9'
  }

  predicate AllDigits(s: string)
  {
    forall i :: 0 <= i < |s| ==> IsDigit(s[i])
  }

  function DigitValue(c: char): nat
    requires IsDigit(c)
  {
    (c as int) - ('0' as int)
  }

  /** The value of a run of decimal digits, most significant first. */
  function DigitsValue(s: string): nat
    requires AllDigits(s)
  {
    if |s| == 0 then 0
    else DigitsValue(s[..|s| - 1]) * 10 + DigitValue(s[|s| - 1])
  }

  function Pow10(n: nat): nat
  {
    if n == 0 then 1 else 10 * Pow10(n - 1)
  }

  predicate HasSign(s: string)
  {
    |s| > 0 && (s[0] == '+' || s[0] == '-')
  }

  /** The string with its leading sign, if any, removed. */
  function Magnitude(s: string): string
  {
    if HasSign(s) then s[1..] else s
  }

  /** The validator's `isInt` with its default options, which allow leading
      zeros: a sign or a digit first, digits after it, and at least one
      digit in all. */
  predicate IsInt(s: string)
  {
    && |s| > 0
    && (forall i :: 0 < i < |s| ==> IsDigit(s[i]))
    && (IsDigit(s[0]) || (|s| > 1 && (s[0] == '+' || s[0] == '-')))
  }

  /** The strings a `Number` field casts to an integer: an optional sign and
      at least one decimal digit. */
  predicate IsDecimal(s: string)
  {
    var d := Magnitude(s);
    |d| > 0 && AllDigits(d)
  }

  /** A number written with a superfluous leading zero. */
  predicate ZeroLed(s: string)
  {
    |s| > 0 && s[0] == '0'
  }

  function DecimalValue(s: string): int
    requires IsDecimal(s)
  {
    var v: int := DigitsValue(Magnitude(s));
    if s[0] == '-' then -v else v
  }

  /** The strings `isInt` accepts are exactly those the cast reads as an
      integer. */
  lemma IntIsDecimal(s: string)
    ensures IsInt(s) <==> IsDecimal(s)
  {
    if IsDecimal(s) && HasSign(s) {
      assert forall i :: 0 < i < |s| ==> s[i] == s[1..][i - 1];
    }
    if IsInt(s) && HasSign(s) {
      assert forall i :: 0 <= i < |s| - 1 ==> s[1..][i] == s[i + 1];
    }
  }

  /** `n` digits denote a value below 10^n. */
  lemma {:induction false} DigitsBelowPow10(s: string)
    requires AllDigits(s)
    ensures DigitsValue(s) < Pow10(|s|)
  {
    if |s| > 0 {
      DigitsBelowPow10(s[..|s| - 1]);
    }
  }

  /** `n` digits with a non-zero leading digit denote at least 10^(n-1). */
  lemma {:induction false} LeadingDigitLowerBound(s: string)
    requires AllDigits(s) && |s| > 0 && s[0] != '0'
    ensures Pow10(|s| - 1) <= DigitsValue(s)
  {
    if |s| > 1 {
      var init := s[..|s| - 1];
      assert init[0] == s[0];
      LeadingDigitLowerBound(init);
    } else {
      assert s[..0] == [];
    }
  }

  /** A leading zero adds nothing to the value. */
  lemma {:induction false} LeadingZeroDropped(s: string)
    requires AllDigits(s) && ZeroLed(s)
    ensures DigitsValue(s) == DigitsValue(s[1..])
  {
    if |s| == 1 {
      assert s[..0] == [] && s[1..] == [];
    } else {
      var init := s[..|s| - 1];
      assert init[0] == '0';
      LeadingZeroDropped(init);
      assert s[1..][..|s| - 2] == init[1..];
    }
  }

  /** A five-character string that `isInt` accepts is an unsigned number in
      [10000, 99999] when it starts with a non-zero digit, and at most 9999
      in magnitude when it starts with a sign or a zero. */
  lemma FiveCharIntRange(s: string)
    requires IsInt(s) && |s| == 5
    ensures IsDecimal(s)
    ensures !HasSign(s) && !ZeroLed(s) ==> 10000 <= DecimalValue(s) <= 99999
    ensures !HasSign(s) && ZeroLed(s) ==> 0 <= DecimalValue(s) <= 9999
    ensures HasSign(s) ==> -9999 <= DecimalValue(s) <= 9999
  {
    IntIsDecimal(s);
    var d := Magnitude(s);
    assert Pow10(4) == 10000;
    assert Pow10(5) == 100000;
    if HasSign(s) {
      assert |d| == 4;
      DigitsBelowPow10(d);
    } else if ZeroLed(s) {
      LeadingZeroDropped(d);
      DigitsBelowPow10(d[1..]);
    } else {
      DigitsBelowPow10(d);
      LeadingDigitLowerBound(d);
    }
  }
}

=== FILE: registration.dfy ===
/** Handlers run in sequence the way the web framework runs a route: each
    one runs only when the one before it passed control on with `next()`.
    The registration route is validate, create, redirectView. */
module Registration {
  import opened Common
  import opened IntText
  import opened UserModel
  import opened UsersController

  /** Everything the handlers take from outside the request: the email
      grammar and normaliser of the request validator, the subscriber
      directory, the `_id` the next new document receives, a failure the
      database may report during a registration, and one it may report for
      an update or delete. */
  datatype Env = Env(
    isEmail: string -> bool,
    normalize: string -> string,
    find: Option<string> -> Lookup,
    newId: UserId,
    registerFault: Option<DbFault>,
    fault: Option<string>)

  datatype Handler =
    | ValidateHandler
    | CreateHandler
    | CreateContinuingHandler
    | RedirectViewHandler
    | LogoutHandler
    | UpdateHandler
    | DeleteHandler

  function Apply(h: Handler, st: State, env: Env): State
  {
    match h
    case ValidateHandler => Validate(st, env.isEmail, env.normalize)
    case CreateHandler => Create(st, env.newId, env.find, env.registerFault)
    case CreateContinuingHandler => CreateContinuing(st, env.newId, env.find, env.registerFault)
    case RedirectViewHandler => RedirectView(st)
    case LogoutHandler => Logout(st)
    case UpdateHandler => Update(st, env.fault)
    case DeleteHandler => Delete(st, env.fault)
  }

  /** Runs the handlers in order while control is passed on. */
  function Run(hs: seq<Handler>, st: State, env: Env): State
  {
    if |hs| == 0 || !st.req.control.Next? then st
    else Run(hs[1..], Apply(hs[0], st, env), env)
  }

  /** Running two routes back to back is running their concatenation. */
  lemma {:induction false} RunAppend(a: seq<Handler>, b: seq<Handler>, st: State, env: Env)
    ensures Run(a + b, st, env) == Run(b, Run(a, st, env), env)
  {
    if |a| == 0 {
      assert a + b == b;
    } else if !st.req.control.Next? {
      if |b| > 0 {
        assert Run(b, st, env) == st;
      }
    } else {
      assert (a + b)[1..] == a[1..] + b;
      RunAppend(a[1..], b, Apply(a[0], st, env), env);
    }
  }

  /** Once a handler stops passing control on, no later handler runs. */
  lemma RunStopsUnlessNext(hs: seq<Handler>, st: State, env: Env)
    requires !st.req.control.Next?
    ensures Run(hs, st, env) == st
  {
  }

  /** A route of one handler runs it exactly when control is passed on. */
  lemma RunOne(h: Handler, st: State, env: Env)
    ensures Run([h], st, env) == if st.req.control.Next? then Apply(h, st, env) else st
  {
    if st.req.control.Next? {
      assert [h][1..] == [];
    }
  }

  /** A three-handler route unfolded: each handler runs on the state the
      previous one left, while control is passed on. */
  lemma RunThree(hs: seq<Handler>, st: State, env: Env)
    requires |hs| == 3 && st.req.control.Next?
    ensures var s1 := Apply(hs[0], st, env);
      var s2 := Apply(hs[1], s1, env);
      Run(hs, st, env) ==
        if !s1.req.control.Next? then s1
        else if !s2.req.control.Next? then s2
        else Apply(hs[2], s2, env)
  {
    assert hs == [hs[0]] + [hs[1]] + [hs[2]];
    RunAppend([hs[0]] + [hs[1]], [hs[2]], st, env);
    RunAppend([hs[0]], [hs[1]], st, env);
    RunOne(hs[0], st, env);
    var s1 := Apply(hs[0], st, env);
    RunOne(hs[1], s1, env);
    if s1.req.control.Next? {
      var s2 := Apply(hs[1], s1, env);
      RunOne(hs[2], s2, env);
    } else {
      RunStopsUnlessNext([hs[2]], s1, env);
    }
  }

  /** The registration route with `create` as written. */
  const RegisterRoute: seq<Handler> := [ValidateHandler, CreateHandler, RedirectViewHandler]

  /** The registration route with a `create` that continues on success. */
  const CorrectedRegisterRoute: seq<Handler> := [ValidateHandler, CreateContinuingHandler, RedirectViewHandler]

  /** The handlers of the route as written, one by one: validate passes
      control on. */
  lemma RouteSteps(st: State, env: Env)
    ensures var hs := RegisterRoute;
      var v := Validate(st, env.isEmail, env.normalize);
      var c := Create(v, env.newId, env.find, env.registerFault);
      && Apply(hs[0], st, env) == v && v.req.control.Next?
      && Apply(hs[1], v, env) == c
      && Apply(hs[2], c, env) == RedirectView(c)
  {
  }

  /** The registration route as written, unfolded: validate always passes
      control on, so create runs, and redirectView runs when create passes
      control on. */
  lemma RunRegisterRoute(st: State, env: Env)
    requires st.req.control.Next?
    ensures var c := Create(Validate(st, env.isEmail, env.normalize), env.newId, env.find, env.registerFault);
      Run(RegisterRoute, st, env) == if c.req.control.Next? then RedirectView(c) else c
  {
    RouteSteps(st, env);
    RunThree(RegisterRoute, st, env);
  }

  /** The handlers of the corrected route, one by one: validate and the
      corrected create both pass control on. */
  lemma CorrectedRouteSteps(st: State, env: Env)
    ensures var hs := CorrectedRegisterRoute;
      var v := Validate(st, env.isEmail, env.normalize);
      var c := CreateContinuing(v, env.newId, env.find, env.registerFault);
      && Apply(hs[0], st, env) == v && v.req.control.Next?
      && Apply(hs[1], v, env) == c && c.req.control.Next?
      && Apply(hs[2], c, env) == RedirectView(c)
  {
  }

  /** The corrected registration route, unfolded: every handler runs. */
  lemma RunCorrectedRoute(st: State, env: Env)
    requires st.req.control.Next?
    ensures Run(CorrectedRegisterRoute, st, env) ==
      RedirectView(CreateContinuing(Validate(st, env.isEmail, env.normalize), env.newId, env.find, env.registerFault))
  {
    CorrectedRouteSteps(st, env);
    RunThree(CorrectedRegisterRoute, st, env);
  }

  /** A fresh request: nothing queued, no redirect, control with the route. */
  predicate Fresh(st: State)
  {
    && !st.req.skip
    && st.req.flashes == []
    && st.req.redirect.None?
    && st.req.control == Next
  }

  function ErrorsOf(st: State, env: Env): seq<string>
  {
    ValidationErrors(Sanitize(st.req.body, env.normalize), env.isEmail)
  }

  /** A request that fails validation never reaches the store, on either
      route: it ends redirected to the form with one error flash that names
      every failing check. */
  lemma RejectedRegistration(st: State, env: Env, m: string)
    requires Fresh(st)
    requires m in ErrorsOf(st, env)
    ensures var r := Run(RegisterRoute, st, env);
      && r == Run(CorrectedRegisterRoute, st, env)
      && r.users == st.users
      && r.req.control == Redirected(FormPath)
      && r.req.flashes == [Flash(ErrorFlash, Join(ErrorsOf(st, env), MessageSeparator))]
      && Contains(r.req.flashes[0].text, m)
  {
    RunRegisterRoute(st, env);
    RunCorrectedRoute(st, env);
    var v := Validate(st, env.isEmail, env.normalize);
    ValidateFlashNamesFailures(st, env.isEmail, env.normalize, m);
    assert v.req.skip;
    assert Create(v, env.newId, env.find, env.registerFault) == v.(req := v.req.(control := Next));
  }

  /** The document a request that passes validation asks to register. */
  function CandidateOf(st: State, env: Env): User
  {
    Candidate(Validate(st, env.isEmail, env.normalize))
  }

  /** A valid request whose document meets the schema, under an email nobody
      has registered, with a fresh id, a directory that answers and a
      database that does not fail, is registered: the new document, linked
      by the pre-save hook, is stored under the new id and nothing else
      changes. The route as written then stalls without a response; the
      corrected route redirects to the user list with a success flash. */
  lemma AcceptedRegistration(st: State, env: Env)
    requires Fresh(st)
    requires ErrorsOf(st, env) == []
    requires Persistable(CandidateOf(st, env))
    requires !EmailTaken(st.users, CandidateOf(st, env).email)
    requires !env.find(CandidateOf(st, env).email).LookupFailed?
    requires env.newId !in st.users && env.registerFault.None?
    ensures LinkSubscriber(CandidateOf(st, env), env.find).Ok?
    ensures var written := Run(RegisterRoute, st, env);
      var fixed := Run(CorrectedRegisterRoute, st, env);
      && written.users == fixed.users
      && fixed.users == st.users[env.newId := LinkSubscriber(CandidateOf(st, env), env.find).value]
      && written.req.control == Stalled
      && fixed.req.control == Redirected(IndexPath)
      && fixed.req.flashes == [Flash(SuccessFlash, CreatedMessage)]
  {
    RunRegisterRoute(st, env);
    RunCorrectedRoute(st, env);
    var v := Validate(st, env.isEmail, env.normalize);
    assert !v.req.skip && v.users == st.users;
    assert Present(Field(v.req.body, "password"));
    assert RegistrationAttempt(v, env.newId, env.find, env.registerFault).Ok?;
  }

  /** A valid request whose email is already registered leaves the store as
      it was and ends on the form with the conflict reported. */
  lemma DuplicateRegistration(st: State, env: Env)
    requires Fresh(st)
    requires ErrorsOf(st, env) == []
    requires "email" in st.req.body
    requires var e := env.normalize(st.req.body["email"]); e != "" && EmailTaken(st.users, Some(e))
    requires !(env.registerFault.Some? && env.registerFault.value.QueryFault?)
    ensures var r := Run(CorrectedRegisterRoute, st, env);
      && r == Run(RegisterRoute, st, env)
      && r.users == st.users
      && r.req.control == Redirected(FormPath)
      && r.req.flashes == [Flash(ErrorFlash, CreateFailedPrefix + ErrorMessage(UserExists))]
  {
    RunRegisterRoute(st, env);
    RunCorrectedRoute(st, env);
    var v := Validate(st, env.isEmail, env.normalize);
    assert Field(v.req.body, "email") == Some(env.normalize(st.req.body["email"]));
    CreateRejectsTakenEmail(v, env.newId, env.find, env.registerFault);
  }

  // ---------------------------------------------------------------------
  // Scenarios

  const AnnBody: Body := map["first" := "Ann", "last" := "Lee", "email" := "ANN@X.COM",
                              "password" := "secret1", "zipCode" := "30301"]

  function Request(body: Body): State
  {
    State(Req(body, "", false, [], None, Next), map[])
  }

  function AnnEnv(find: Option<string> -> Lookup): Env
  {
    Env(
      (s: string) => s == "ann@x.com",
      (s: string) => if s == "ANN@X.COM" then "ann@x.com" else s,
      find,
      "u1",
      None,
      None)
  }

  /** The zip codes of the scenarios are integers to the validator. */
  lemma ExampleZipsAreInts()
    ensures IsInt("30301") && IsInt("123")
  {
    assert "30301"[1..] == "0301" && "123"[1..] == "23";
  }

  lemma ZipOfAnn()
    ensures CastZip(Some("30301")) == ZipNumber(30301)
  {
    assert IsDecimal("30301");
    assert DigitsValue("30301") == 30301 by {
      assert "30301"[..4] == "3030";
      assert "3030"[..3] == "303";
      assert "303"[..2] == "30";
      assert "30"[..1] == "3";
      assert "3"[..0] == "";
    }
  }

  /** Ann registers on the corrected route with whatever subscriber the
      directory holds under her normalised email: the stored user has that
      email, zip code 30301 and the subscriber's id if there is one, and the
      route redirects to the list. */
  lemma AnnRegistersWith(find: Option<string> -> Lookup)
    requires !find(Some("ann@x.com")).LookupFailed?
    ensures var r := Run(CorrectedRegisterRoute, Request(AnnBody), AnnEnv(find));
      var link := if find(Some("ann@x.com")).Found? then Some(find(Some("ann@x.com")).id) else None;
      && r.req.control == Redirected(IndexPath)
      && r.req.flashes == [Flash(SuccessFlash, CreatedMessage)]
      && r.users == map["u1" := User(Name(Some("Ann"), Some("Lee")), Some("ann@x.com"), ZipNumber(30301), link)]
  {
    var env := AnnEnv(find);
    var st := Request(AnnBody);
    RunCorrectedRoute(st, env);
    var v := Request(AnnBody["email" := "ann@x.com"]);
    assert Validate(st, env.isEmail, env.normalize) == v by {
      assert ZipBody("30301") == AnnBody;
      ExampleZipsAreInts();
      ZipValidated("30301", find);
    }
    AnnCreated(find);
    var c := CreateContinuing(v, "u1", find, None);
    assert RedirectView(c).req.control == Redirected(IndexPath);
  }

  /** The corrected `create` stores Ann's validated request and sends her to
      the list. */
  lemma AnnCreated(find: Option<string> -> Lookup)
    requires !find(Some("ann@x.com")).LookupFailed?
    ensures var link := if find(Some("ann@x.com")).Found? then Some(find(Some("ann@x.com")).id) else None;
      var c := CreateContinuing(Request(AnnBody["email" := "ann@x.com"]), "u1", find, None);
      && c.req.control == Next
      && c.req.redirect == Some(IndexPath)
      && c.req.flashes == [Flash(SuccessFlash, CreatedMessage)]
      && c.users == map["u1" := User(Name(Some("Ann"), Some("Lee")), Some("ann@x.com"), ZipNumber(30301), link)]
  {
    AnnIsStored(find);
  }

  /** Ann's validated request registers her as the only user. */
  lemma AnnIsStored(find: Option<string> -> Lookup)
    requires !find(Some("ann@x.com")).LookupFailed?
    ensures var link := if find(Some("ann@x.com")).Found? then Some(find(Some("ann@x.com")).id) else None;
      var user := User(Name(Some("Ann"), Some("Lee")), Some("ann@x.com"), ZipNumber(30301), link);
      RegistrationAttempt(Request(AnnBody["email" := "ann@x.com"]), "u1", find, None) == Ok(Registered(map["u1" := user], user))
  {
    var b := AnnBody["email" := "ann@x.com"];
    assert Field(b, "email") == Some("ann@x.com");
    assert Field(b, "zipCode") == Some("30301");
    assert Field(b, "password") == Some("secret1");
    assert Field(b, "first") == Some("Ann") && Field(b, "last") == Some("Lee");
    ZipOfAnn();
    var u := NewUser(GetUserParams(b));
    assert u == User(Name(Some("Ann"), Some("Lee")), Some("ann@x.com"), ZipNumber(30301), None);
    assert Persistable(u);
    var link := if find(Some("ann@x.com")).Found? then Some(find(Some("ann@x.com")).id) else None;
    var linked := u.(subscribedAccount := link);
    assert LinkSubscriber(u, find) == Ok(linked);
    assert Save(map[], "u1", u, find, None) == Ok(map["u1" := linked]);
  }

  /** The two scenarios: a subscriber on file under Ann's normalised email
      gets linked; with none on file the link stays empty. */
  lemma AnnRegisters()
    ensures var r := Run(CorrectedRegisterRoute, Request(AnnBody),
                         AnnEnv((e: Option<string>) => if e == Some("ann@x.com") then Found("s1") else NoMatch));
      r.users == map["u1" := User(Name(Some("Ann"), Some("Lee")), Some("ann@x.com"), ZipNumber(30301), Some("s1"))]
    ensures var r := Run(CorrectedRegisterRoute, Request(AnnBody), AnnEnv((e: Option<string>) => NoMatch));
      r.users == map["u1" := User(Name(Some("Ann"), Some("Lee")), Some("ann@x.com"), ZipNumber(30301), None)]
  {
    AnnRegistersWith((e: Option<string>) => if e == Some("ann@x.com") then Found("s1") else NoMatch);
    AnnRegistersWith((e: Option<string>) => NoMatch);
  }

  /** A three-digit zip code is rejected with the zip code message alone,
      and nothing is stored. */
  lemma ShortZipRejected()
    ensures var r := Run(RegisterRoute, Request(AnnBody["zipCode" := "123"]), AnnEnv((e: Option<string>) => NoMatch));
      && r.users == map[]
      && r.req.control == Redirected(FormPath)
      && r.req.flashes == [Flash(ErrorFlash, ZipMessage)]
  {
    var env := AnnEnv((e: Option<string>) => NoMatch);
    var st := Request(AnnBody["zipCode" := "123"]);
    RunRegisterRoute(st, env);
    ShortZipErrors(env.isEmail, env.normalize);
    var v := Validate(st, env.isEmail, env.normalize);
    assert v.req.flashes == [Flash(ErrorFlash, ZipMessage)];
    assert v.req.skip && v.users == map[];
    var c := Create(v, env.newId, env.find, env.registerFault);
    assert c.req.redirect == Some(FormPath) && c.req.control == Next;
  }

  /** Zip code "123" fails only the length check. */
  lemma ShortZipErrors(isEmail: string -> bool, normalize: string -> string)
    requires isEmail("ann@x.com") && normalize("ANN@X.COM") == "ann@x.com"
    ensures ValidationErrors(Sanitize(AnnBody["zipCode" := "123"], normalize), isEmail) == [ZipMessage]
  {
    var b := Sanitize(AnnBody["zipCode" := "123"], normalize);
    assert Field(b, "email") == Some("ann@x.com");
    assert Field(b, "zipCode") == Some("123");
    assert Field(b, "password") == Some("secret1");
    ExampleZipsAreInts();
  }

  /** Ann's form with another zip code. */
  function ZipBody(z: string): Body
  {
    AnnBody["zipCode" := z]
  }

  /** A zip code the validators accept lets Ann's request through them. */
  lemma ZipValidated(z: string, find: Option<string> -> Lookup)
    requires ZipAccepted(z)
    ensures var env := AnnEnv(find);
      Validate(Request(ZipBody(z)), env.isEmail, env.normalize) == Request(ZipBody(z)["email" := "ann@x.com"])
  {
    var env := AnnEnv(find);
    var b := Sanitize(ZipBody(z), env.normalize);
    assert b == ZipBody(z)["email" := "ann@x.com"];
    assert Field(b, "email") == Some("ann@x.com");
    assert Field(b, "zipCode") == Some(z);
    assert Field(b, "password") == Some("secret1");
  }

  /** A validated zip code with a sign or a leading zero stops the
      registration at the schema's minimum. */
  lemma ZipFailsSchema(z: string, find: Option<string> -> Lookup)
    requires ZipAccepted(z) && (HasSign(z) || ZeroLed(z))
    ensures RegistrationAttempt(Request(ZipBody(z)["email" := "ann@x.com"]), "u1", find, None) == Err(Invalid([ZipTooShort]))
  {
    var b := ZipBody(z)["email" := "ann@x.com"];
    assert Field(b, "email") == Some("ann@x.com");
    assert Field(b, "zipCode") == Some(z);
    assert Field(b, "password") == Some("secret1");
    assert Field(b, "first") == Some("Ann") && Field(b, "last") == Some("Lee");
    FiveCharIntRange(z);
    var u := NewUser(GetUserParams(b));
    assert u.zipCode == ZipNumber(DecimalValue(z));
    assert u.zipCode.n < ZipMin;
    assert Violations(u) == [ZipTooShort];
  }

  /** Either `create` answers such a validated request with the schema's
      refusal and sends it back to the form. */
  lemma ZipCreateFails(z: string, find: Option<string> -> Lookup)
    requires ZipAccepted(z) && (HasSign(z) || ZeroLed(z))
    ensures var st := Request(ZipBody(z)["email" := "ann@x.com"]);
      var c := Create(st, "u1", find, None);
      && c == CreateContinuing(st, "u1", find, None)
      && c.users == map[]
      && c.req.redirect == Some(FormPath)
      && c.req.control == Next
      && c.req.flashes == [Flash(ErrorFlash, CreateFailedPrefix + ErrorMessage(Invalid([ZipTooShort])))]
  {
    ZipFailsSchema(z, find);
  }

  /** A zip code with a sign or a leading zero passes the request checks but
      not the schema: on either route registration fails and the user is
      sent back to the form, with nothing stored. */
  lemma OutOfRangeZipPassesValidationOnly(z: string, find: Option<string> -> Lookup)
    requires ZipAccepted(z) && (HasSign(z) || ZeroLed(z))
    ensures var r := Run(CorrectedRegisterRoute, Request(ZipBody(z)), AnnEnv(find));
      && r == Run(RegisterRoute, Request(ZipBody(z)), AnnEnv(find))
      && r.users == map[]
      && r.req.control == Redirected(FormPath)
      && r.req.flashes == [Flash(ErrorFlash, CreateFailedPrefix + ErrorMessage(Invalid([ZipTooShort])))]
  {
    var env := AnnEnv(find);
    var st := Request(ZipBody(z));
    RunCorrectedRoute(st, env);
    RunRegisterRoute(st, env);
    ZipValidated(z, find);
    ZipCreateFails(z, find);
  }

  /** "+1234" is five characters and an integer, so the validators pass it;
      its value 1234 is below the schema's minimum. */
  lemma SignedZipPassesValidationOnly(find: Option<string> -> Lookup)
    ensures var r := Run(CorrectedRegisterRoute, Request(ZipBody("+1234")), AnnEnv(find));
      && r.users == map[]
      && r.req.control == Redirected(FormPath)
      && r.req.flashes == [Flash(ErrorFlash, CreateFailedPrefix + ErrorMessage(Invalid([ZipTooShort])))]
  {
    assert IsInt("+1234") && HasSign("+1234");
    OutOfRangeZipPassesValidationOnly("+1234", find);
  }

  /** The Boston zip code "02134" passes the validators, whose `isInt`
      allows a leading zero, but is cast to 2134, below the schema's
      minimum: the registration fails and the user is sent back to the form. */
  lemma LeadingZeroZipPassesValidationOnly(find: Option<string> -> Lookup)
    ensures var r := Run(CorrectedRegisterRoute, Request(ZipBody("02134")), AnnEnv(find));
      && r.users == map[]
      && r.req.control == Redirected(FormPath)
      && r.req.flashes == [Flash(ErrorFlash, CreateFailedPrefix + ErrorMessage(Invalid([ZipTooShort])))]
  {
    assert IsInt("02134") && ZeroLed("02134");
    OutOfRangeZipPassesValidationOnly("02134", find);
  }

  /** The defect at line 69: a rejected request never gets its redirect or
      flash, and the route stalls instead of returning to the form. */
  lemma AsWrittenValidateStalls()
    ensures var st := Request(AnnBody["zipCode" := "123"]);
      var env := AnnEnv((e: Option<string>) => NoMatch);
      var written := ValidateAsWritten(st, env.isEmail, env.normalize);
      var fixed := Validate(st, env.isEmail, env.normalize);
      && written.req.control == Stalled && written.req.redirect.None? && written.req.flashes == []
      && fixed.req.control == Next && fixed.req.redirect == Some(FormPath) && fixed.req.skip
  {
  }
}

=== FILE: user_model.dfy ===
/** The user document of `models/user.js`: its schema constraints, the
    derived `fullName`, the pre-save hook that links a subscriber record by
    email, and registration with the email as the login username. */
module UserModel {
  import opened Common
  import opened IntText

  /** Document identities (`_id`) and subscriber identities are opaque. */
  type UserId = string
  type SubscriberId = string

  /** The value a `Number` schema field holds after casting the request's
      string: unset, a number, or a string the cast rejected. */
  datatype Zip = NoZip | ZipNumber(n: int) | ZipUncastable(raw: string)

  datatype Name = Name(first: Option<string>, last: Option<string>)

  /** A user document. The login credential that the authentication plugin
      adds is not part of this model, and `fullName` is derived, never stored. */
  datatype User = User(
    name: Name,
    email: Option<string>,
    zipCode: Zip,
    subscribedAccount: Option<SubscriberId>)

  /** The users collection, keyed by `_id`. */
  type Store = map<UserId, User>

  const ZipMin: int := 10000
  const ZipMax: int := 99999

  /** Casting a request string into the `Number` field: an absent value or
      the empty string leaves the field unset. */
  function CastZip(f: Option<string>): (z: Zip)
    ensures f.None? ==> z.NoZip?
    ensures z.ZipNumber? <==> f.Some? && IsDecimal(f.value)
    ensures z.ZipUncastable? <==> f.Some? && f.value != "" && !IsDecimal(f.value)
    ensures z.ZipNumber? ==> z.n == DecimalValue(f.value)
    ensures z.ZipUncastable? ==> z.raw == f.value
  {
    match f
    case None => NoZip
    case Some(s) =>
      if s == "" then NoZip
      else if IsDecimal(s) then ZipNumber(DecimalValue(s))
      else ZipUncastable(s)
  }

  /** A `required: true` string path: set, and not the empty string. */
  predicate Present(f: Option<string>)
  {
    f.Some? && |f.value| > 0
  }

  predicate ZipInRange(z: Zip)
  {
    z.NoZip? || (z.ZipNumber? && ZipMin <= z.n <= ZipMax)
  }

  /** The schema's constraints on a document about to be stored. */
  predicate Persistable(u: User)
  {
    && Present(u.name.first)
    && Present(u.name.last)
    && Present(u.email)
    && ZipInRange(u.zipCode)
  }

  datatype Violation =
    | FirstRequired | LastRequired | EmailRequired
    | ZipNotNumber | ZipTooShort | ZipTooLarge

  /** The schema validator's failures, in the order the paths are declared. */
  function Violations(u: User): (vs: seq<Violation>)
    ensures vs == [] <==> Persistable(u)
    ensures FirstRequired in vs <==> !Present(u.name.first)
    ensures LastRequired in vs <==> !Present(u.name.last)
    ensures EmailRequired in vs <==> !Present(u.email)
    ensures ZipTooShort in vs <==> u.zipCode.ZipNumber? && u.zipCode.n < ZipMin
    ensures ZipTooLarge in vs <==> u.zipCode.ZipNumber? && u.zipCode.n > ZipMax
    ensures ZipNotNumber in vs <==> u.zipCode.ZipUncastable?
  {
    (if Present(u.name.first) then [] else [FirstRequired])
    + (if Present(u.name.last) then [] else [LastRequired])
    + (if Present(u.email) then [] else [EmailRequired])
    + (match u.zipCode
       case NoZip => []
       case ZipUncastable(_) => [ZipNotNumber]
       case ZipNumber(n) =>
         if n < ZipMin then [ZipTooShort]
         else if n > ZipMax then [ZipTooLarge]
         else [])
  }

  /** How a template literal prints a possibly undefined string. */
  function Show(f: Option<string>): string
  {
    match f
    case Some(s) => s
    case None => "undefined"
  }

  /** The `fullName` virtual: first name, one space, last name. When both
      parts are set it splits back into exactly those parts. */
  function FullName(u: User): (r: string)
    ensures u.name.first.Some? && u.name.last.Some? ==>
      var first, last := u.name.first.value, u.name.last.value;
      && |r| == |first| + 1 + |last|
      && r[..|first|] == first
      && r[|first|] == ' '
      && r[|first| + 1..] == last
  {
    Show(u.name.first) + " " + Show(u.name.last)
  }

  /** The answer of `Subscriber.findOne({email})`. */
  datatype Lookup = Found(id: SubscriberId) | NoMatch | LookupFailed(message: string)

  /** The pre-save hook. With `subscribedAccount` unset it asks `find` for
      the subscriber whose email is the user's and records the answer; a
      failed lookup aborts the save with the lookup's error. */
  function LinkSubscriber(u: User, find: Option<string> -> Lookup): (r: Result<User, string>)
    ensures r.Ok? ==> r.value == u.(subscribedAccount := r.value.subscribedAccount)
    ensures r.Err? <==> u.subscribedAccount.None? && find(u.email).LookupFailed?
    ensures u.subscribedAccount.Some? ==> r == Ok(u)
  {
    if u.subscribedAccount.Some? then Ok(u)
    else
      match find(u.email)
      case Found(id) => Ok(u.(subscribedAccount := Some(id)))
      case NoMatch => Ok(u)
      case LookupFailed(msg) => Err(msg)
  }

  /** A user who already has a subscriber keeps it, whatever the directory
      would answer: no lookup takes place. */
  lemma LinkIgnoresLookupWhenSet(u: User, f: Option<string> -> Lookup, g: Option<string> -> Lookup)
    requires u.subscribedAccount.Some?
    ensures LinkSubscriber(u, f) == LinkSubscriber(u, g) == Ok(u)
  {
  }

  /** The hook consults the directory only about the user's own email. */
  lemma LinkDependsOnlyOnEmail(u: User, f: Option<string> -> Lookup, g: Option<string> -> Lookup)
    requires f(u.email) == g(u.email)
    ensures LinkSubscriber(u, f) == LinkSubscriber(u, g)
  {
  }

  /** The three outcomes of the hook on a user without a subscriber. */
  lemma LinkOutcomes(u: User, find: Option<string> -> Lookup)
    requires u.subscribedAccount.None?
    ensures find(u.email).Found? ==> LinkSubscriber(u, find) == Ok(u.(subscribedAccount := Some(find(u.email).id)))
    ensures find(u.email).NoMatch? ==> LinkSubscriber(u, find) == Ok(u)
    ensures find(u.email).LookupFailed? ==> LinkSubscriber(u, find) == Err(find(u.email).message)
  {
  }

  /** Running the hook a second time changes nothing. */
  lemma LinkIdempotent(u: User, find: Option<string> -> Lookup)
    requires LinkSubscriber(u, find).Ok?
    ensures LinkSubscriber(LinkSubscriber(u, find).value, find) == LinkSubscriber(u, find)
  {
  }

  /** Some stored user has this email. */
  predicate EmailTaken(s: Store, e: Option<string>)
  {
    exists k :: k in s && s[k].email == e
  }

  /** The unique index on `email`. */
  ghost predicate EmailsUnique(s: Store)
  {
    forall j, k :: j in s && k in s && s[j].email == s[k].email ==> j == k
  }

  /** What every stored user satisfies when it got in through `Save`. */
  ghost predicate Consistent(s: Store)
  {
    EmailsUnique(s) && forall k :: k in s ==> Persistable(s[k])
  }

  datatype RegisterError =
    | MissingUsername
    | UserExists
    | MissingPassword
    | Invalid(violations: seq<Violation>)
    | LinkFailed(message: string)
    | DuplicateKey
    | DatabaseFailed(message: string)

  /** The `message` of each error as the create handler reports it. */
  function ErrorMessage(e: RegisterError): string
  {
    match e
    case MissingUsername => "No username was given"
    case UserExists => "A user with the given username is already registered"
    case MissingPassword => "No password was given"
    case Invalid(_) => "User validation failed"
    case LinkFailed(msg) => msg
    case DuplicateKey => "E11000 duplicate key error"
    case DatabaseFailed(msg) => msg
  }

  /** A failure the database may report while registering: on the query for
      an existing user with the email, or on the insert itself. */
  datatype DbFault = QueryFault(message: string) | InsertFault(message: string)

  /** `save()`: schema validation, then the pre-save hook, then the insert,
      which the database may fail (`fault`) and the unique indexes on `_id`
      and `email` may refuse. */
  function Save(s: Store, id: UserId, u: User, find: Option<string> -> Lookup, fault: Option<string>)
    : (r: Result<Store, RegisterError>)
    ensures r.Ok? ==>
      && id !in s
      && !EmailTaken(s, u.email)
      && LinkSubscriber(u, find).Ok?
      && r.value == s[id := LinkSubscriber(u, find).value]
      && Persistable(r.value[id])
    ensures !Persistable(u) ==> r == Err(Invalid(Violations(u)))
    ensures Persistable(u) && LinkSubscriber(u, find).Err? ==> r == Err(LinkFailed(LinkSubscriber(u, find).error))
    ensures Persistable(u) && LinkSubscriber(u, find).Ok? && fault.Some? ==> r == Err(DatabaseFailed(fault.value))
    ensures Persistable(u) && LinkSubscriber(u, find).Ok? && fault.None? ==>
      if id in s || EmailTaken(s, u.email) then r == Err(DuplicateKey)
      else r == Ok(s[id := LinkSubscriber(u, find).value])
    ensures Consistent(s) && r.Ok? ==> Consistent(r.value)
  {
    var vs := Violations(u);
    if vs != [] then Err(Invalid(vs))
    else
      match LinkSubscriber(u, find)
      case Err(msg) => Err(LinkFailed(msg))
      case Ok(linked) =>
        if fault.Some? then Err(DatabaseFailed(fault.value))
        else if id in s || EmailTaken(s, linked.email) then Err(DuplicateKey)
        else Ok(s[id := linked])
  }

  /** What a successful registration yields: the new collection and the
      stored document. */
  datatype Registered = Registered(users: Store, user: User)

  /** The part of a registration fault that the insert reports. */
  function InsertFaultOf(fault: Option<DbFault>): (f: Option<string>)
    ensures f.Some? <==> fault.Some? && fault.value.InsertFault?
    ensures f.Some? ==> f.value == fault.value.message
  {
    if fault.Some? && fault.value.InsertFault? then Some(fault.value.message) else None
  }

  /** `User.register(user, password)`: the email is the username, which must
      be given; the query for a user with it must succeed and find none; the
      password must be given; then the document is saved. */
  function Register(s: Store, id: UserId, u: User, password: Option<string>,
                    find: Option<string> -> Lookup, fault: Option<DbFault>)
    : (r: Result<Registered, RegisterError>)
    ensures r.Ok? ==>
      && id !in s
      && Present(u.email)
      && !EmailTaken(s, u.email)
      && Present(password)
      && fault.None?
      && LinkSubscriber(u, find).Ok?
      && r.value.user == LinkSubscriber(u, find).value
      && r.value.users == s[id := r.value.user]
      && Persistable(r.value.user)
    ensures !Present(u.email) ==> r == Err(MissingUsername)
    ensures Present(u.email) && fault.Some? && fault.value.QueryFault? ==> r == Err(DatabaseFailed(fault.value.message))
    ensures Present(u.email) && !(fault.Some? && fault.value.QueryFault?) && EmailTaken(s, u.email) ==>
      r == Err(UserExists)
    ensures Present(u.email) && !(fault.Some? && fault.value.QueryFault?) && !EmailTaken(s, u.email) && !Present(password) ==>
      r == Err(MissingPassword)
    ensures Present(u.email) && !(fault.Some? && fault.value.QueryFault?) && !EmailTaken(s, u.email) && Present(password) ==>
      && (r.Err? <==> Save(s, id, u, find, InsertFaultOf(fault)).Err?)
      && (r.Err? ==> r.error == Save(s, id, u, find, InsertFaultOf(fault)).error)
      && (!Persistable(u) ==> r == Err(Invalid(Violations(u))))
      && (Persistable(u) && LinkSubscriber(u, find).Err? ==> r == Err(LinkFailed(LinkSubscriber(u, find).error)))
      && (Persistable(u) && LinkSubscriber(u, find).Ok? && fault.Some? ==> r == Err(DatabaseFailed(fault.value.message)))
    ensures Present(u.email) && fault.None? && !EmailTaken(s, u.email) && Present(password)
            && Persistable(u) && !LinkSubscriber(u, find).Err? && id !in s ==>
      r == Ok(Registered(s[id := LinkSubscriber(u, find).value], LinkSubscriber(u, find).value))
    ensures Consistent(s) && r.Ok? ==> Consistent(r.value.users)
  {
    if !Present(u.email) then Err(MissingUsername)
    else if fault.Some? && fault.value.QueryFault? then Err(DatabaseFailed(fault.value.message))
    else if EmailTaken(s, u.email) then Err(UserExists)
    else if !Present(password) then Err(MissingPassword)
    else
      match Save(s, id, u, find, InsertFaultOf(fault))
      case Err(e) => Err(e)
      case Ok(s') => Ok(Registered(s', s'[id]))
  }

  /** The number of stored users with this email. */
  function CountWithEmail(s: Store, e: Option<string>): nat
  {
    |set k | k in s && s[k].email == e|
  }

  /** Registering a second user under an email already in use fails and
      leaves exactly the one user with that email. */
  lemma RegisterSameEmailTwice(s: Store, id1: UserId, id2: UserId, u1: User, u2: User,
                               p1: Option<string>, p2: Option<string>, find: Option<string> -> Lookup)
    requires Consistent(s)
    requires u1.email == u2.email
    requires Register(s, id1, u1, p1, find, None).Ok?
    ensures Register(Register(s, id1, u1, p1, find, None).value.users, id2, u2, p2, find, None) == Err(UserExists)
    ensures CountWithEmail(Register(s, id1, u1, p1, find, None).value.users, u1.email) == 1
  {
    var reg := Register(s, id1, u1, p1, find, None).value;
    var s' := reg.users;
    assert s'[id1].email == u1.email;
    assert EmailTaken(s', u2.email);
    var ks := set k | k in s' && s'[k].email == u1.email;
    assert id1 in ks;
    assert ks == {id1};
  }
}

=== FILE: users_controller.dfy ===
/** The middleware of `controllers/usersController.js` as pure transitions
    over an explicit request record and the users collection. Each handler
    ends by passing control on (`next()`), passing an error on
    (`next(error)`), sending a redirect, or doing neither. */
module UsersController {
  import opened Common
  import opened IntText
  import opened UserModel

  /** A form body: field name to submitted text. */
  type Body = map<string, string>

  function Field(b: Body, key: string): Option<string>
  {
    if key in b then Some(b[key]) else None
  }

  /** How the request validator reads a field: an absent field is "". */
  function Text(f: Option<string>): string
  {
    match f
    case Some(s) => s
    case None => ""
  }

  datatype FlashKind = SuccessFlash | ErrorFlash

  datatype Flash = Flash(kind: FlashKind, text: string)

  /** What a database call that rejected its promise reported. */
  datatype Fault = StoreFault(message: string) | NotFound | CastFailed | DuplicateEmail

  /** How a handler finished: `next()`, `next(error)`, `res.redirect(path)`,
      or none of these, which leaves the request waiting for ever. */
  datatype Control = Next | NextError(fault: Fault) | Redirected(path: string) | Stalled

  /** The request as the handlers see it: the body, the `:id` route
      parameter, `req.skip`, the flash messages queued so far,
      `res.locals.redirect`, and how the last handler finished. */
  datatype Req = Req(
    body: Body,
    id: UserId,
    skip: bool,
    flashes: seq<Flash>,
    redirect: Option<string>,
    control: Control)

  datatype State = State(req: Req, users: Store)

  const FormPath := "/users/new"
  const IndexPath := "/users"
  const HomePath := "/"

  // ---------------------------------------------------------------------
  // getUserParams

  datatype UserParams = UserParams(
    name: Name,
    email: Option<string>,
    password: Option<string>,
    zipCode: Option<string>)

  /** The body fields `getUserParams` reads. */
  const ParamKeys: set<string> := {"first", "last", "email", "password", "zipCode"}

  function GetUserParams(b: Body): UserParams
  {
    UserParams(
      Name(Field(b, "first"), Field(b, "last")),
      Field(b, "email"),
      Field(b, "password"),
      Field(b, "zipCode"))
  }

  /** The field of a parameter record that holds the given body field. */
  function ParamField(p: UserParams, key: string): Option<string>
  {
    if key == "first" then p.name.first
    else if key == "last" then p.name.last
    else if key == "email" then p.email
    else if key == "password" then p.password
    else if key == "zipCode" then p.zipCode
    else None
  }

  /** The body a parameter record was read from, as far as it was read. */
  function ParamsBody(p: UserParams): Body
  {
    map k | k in ParamKeys && ParamField(p, k).Some? :: ParamField(p, k).value
  }

  /** `getUserParams` keeps exactly the five fields it reads, unchanged:
      writing the record back gives the body restricted to those fields. */
  lemma GetUserParamsRoundTrip(b: Body)
    ensures ParamsBody(GetUserParams(b)) == map k | k in b && k in ParamKeys :: b[k]
  {
  }

  /** Body fields other than the five it reads make no difference. */
  lemma GetUserParamsIgnoresOtherFields(b: Body, b': Body)
    requires forall k :: k in ParamKeys ==> Field(b, k) == Field(b', k)
    ensures GetUserParams(b) == GetUserParams(b')
  {
  }

  /** `new User(params)`: the zip code is cast to a number, the password is
      not a schema path and is dropped, and no subscriber is linked yet. */
  function NewUser(p: UserParams): (u: User)
    ensures u.name == p.name && u.email == p.email
    ensures u.subscribedAccount.None?
    ensures u.zipCode == CastZip(p.zipCode)
    ensures p.zipCode.Some? && IsDecimal(p.zipCode.value) ==> u.zipCode == ZipNumber(DecimalValue(p.zipCode.value))
  {
    User(p.name, p.email, CastZip(p.zipCode), None)
  }

  // ---------------------------------------------------------------------
  // validate

  const EmailMessage := "email is not valid!"
  const ZipMessage := "Zip Code is not valid."
  const PasswordMessage := "Password can not be empty"
  const MessageSeparator := " and "

  /** The email sanitizer: the address is normalised in place when given. */
  function Sanitize(b: Body, normalize: string -> string): (r: Body)
    ensures r.Keys == b.Keys
    ensures forall k :: k in b && k != "email" ==> r[k] == b[k]
    ensures "email" in b ==> r["email"] == normalize(b["email"])
  {
    if "email" in b then b["email" := normalize(b["email"])] else b
  }

  /** The three zip code validators, in chain order. */
  predicate ZipAccepted(z: string)
  {
    z != "" && IsInt(z) && |z| == 5
  }

  /** The zip code chain's errors: one message per failing validator. */
  function ZipErrors(z: string): (errs: seq<string>)
    ensures errs == [] <==> ZipAccepted(z)
    ensures forall i :: 0 <= i < |errs| ==> errs[i] == ZipMessage
    ensures |errs| <= 3
    ensures z == "" ==> |errs| == 3
    ensures z != "" && IsInt(z) && |z| != 5 ==> |errs| == 1
    ensures z != "" && !IsInt(z) && |z| == 5 ==> |errs| == 1
    ensures z != "" && !IsInt(z) && |z| != 5 ==> |errs| == 2
    ensures multiset(errs)[ZipMessage] == |errs|
  {
    (if z != "" then [] else [ZipMessage])
    + (if IsInt(z) then [] else [ZipMessage])
    + (if |z| == 5 then [] else [ZipMessage])
  }

  /** The email, zip code and password errors put together: each message
      occurs as often as its part holds it, the email message first and the
      password message last. */
  lemma MessageCounts(e: seq<string>, z: seq<string>, p: seq<string>)
    requires e == [] || e == [EmailMessage]
    requires p == [] || p == [PasswordMessage]
    requires forall i :: 0 <= i < |z| ==> z[i] == ZipMessage
    ensures var errs := e + z + p;
      && (EmailMessage in errs <==> e != [])
      && (ZipMessage in errs <==> z != [])
      && (PasswordMessage in errs <==> p != [])
      && (forall i :: 0 <= i < |errs| ==> errs[i] in {EmailMessage, ZipMessage, PasswordMessage})
      && (EmailMessage in errs ==> errs[0] == EmailMessage)
      && (PasswordMessage in errs ==> errs[|errs| - 1] == PasswordMessage)
      && multiset(errs)[EmailMessage] == |e|
      && multiset(errs)[PasswordMessage] == |p|
      && multiset(errs)[ZipMessage] == |z|
  {
    assert EmailMessage != ZipMessage && ZipMessage != PasswordMessage && EmailMessage != PasswordMessage;
    assert multiset(e + z + p) == multiset(e) + multiset(z) + multiset(p);
    assert EmailMessage !in multiset(z) && PasswordMessage !in multiset(z);
    assert multiset(z)[ZipMessage] == |z| by {
      assert z == seq(|z|, i => ZipMessage);
      RepeatedCount(|z|, ZipMessage);
    }
  }

  /** A sequence of `n` copies of `m` holds `m` exactly `n` times. */
  lemma {:induction false} RepeatedCount(n: nat, m: string)
    ensures multiset(seq(n, i => m))[m] == n
  {
    if n > 0 {
      RepeatedCount(n - 1, m);
      assert seq(n, i => m) == seq(n - 1, i => m) + [m];
    }
  }

  /** The messages of the failing validators in the order they are chained;
      each validator of a chain that fails contributes the chain's message,
      so the zip code message can appear up to three times. */
  function ValidationErrors(b: Body, isEmail: string -> bool): (errs: seq<string>)
    ensures EmailMessage in errs <==> !isEmail(Text(Field(b, "email")))
    ensures ZipMessage in errs <==> !ZipAccepted(Text(Field(b, "zipCode")))
    ensures PasswordMessage in errs <==> Text(Field(b, "password")) == ""
    ensures errs == [] <==>
      isEmail(Text(Field(b, "email"))) && ZipAccepted(Text(Field(b, "zipCode"))) && Text(Field(b, "password")) != ""
    ensures forall i :: 0 <= i < |errs| ==> errs[i] in {EmailMessage, ZipMessage, PasswordMessage}
    ensures EmailMessage in errs ==> errs[0] == EmailMessage
    ensures PasswordMessage in errs ==> errs[|errs| - 1] == PasswordMessage
    ensures multiset(errs)[EmailMessage] <= 1 && multiset(errs)[PasswordMessage] <= 1
    ensures multiset(errs)[ZipMessage] == |ZipErrors(Text(Field(b, "zipCode")))|
  {
    var e := if isEmail(Text(Field(b, "email"))) then [] else [EmailMessage];
    var z := ZipErrors(Text(Field(b, "zipCode")));
    var p := if Text(Field(b, "password")) != "" then [] else [PasswordMessage];
    MessageCounts(e, z, p);
    e + z + p
  }

  /** `validate` with the collected messages joined, as line 68 intends:
      on any failure it marks the request to be skipped, queues one error
      flash, and sets the redirect to the form; it always passes control on. */
  function Validate(st: State, isEmail: string -> bool, normalize: string -> string): (r: State)
    ensures r.users == st.users
    ensures r.req.control == Next
    ensures r.req.body == Sanitize(st.req.body, normalize)
    ensures r.req.id == st.req.id
    ensures var errs := ValidationErrors(r.req.body, isEmail);
      && (errs == [] ==> r.req == st.req.(body := r.req.body, control := Next))
      && (errs != [] ==>
            && r.req.skip
            && r.req.redirect == Some(FormPath)
            && r.req.flashes == st.req.flashes + [Flash(ErrorFlash, Join(errs, MessageSeparator))])
  {
    var b := Sanitize(st.req.body, normalize);
    var errs := ValidationErrors(b, isEmail);
    if errs == [] then
      st.(req := st.req.(body := b, control := Next))
    else
      st.(req := st.req.(
        body := b,
        skip := true,
        flashes := st.req.flashes + [Flash(ErrorFlash, Join(errs, MessageSeparator))],
        redirect := Some(FormPath),
        control := Next))
  }

  /** The flash `Validate` queues names every check that failed. */
  lemma ValidateFlashNamesFailures(st: State, isEmail: string -> bool, normalize: string -> string, m: string)
    requires m in ValidationErrors(Sanitize(st.req.body, normalize), isEmail)
    ensures var r := Validate(st, isEmail, normalize);
      && |r.req.flashes| == |st.req.flashes| + 1
      && r.req.flashes[|st.req.flashes|].kind == ErrorFlash
      && Contains(r.req.flashes[|st.req.flashes|].text, m)
  {
    var errs := ValidationErrors(Sanitize(st.req.body, normalize), isEmail);
    var i :| 0 <= i < |errs| && errs[i] == m;
    JoinContainsEach(errs, MessageSeparator, i);
  }

  /** `validate` as written: line 69 joins `message`, which is not defined,
      so on any failure the callback throws before it flashes, sets `skip`
      or the redirect, and `next` is never called. */
  function ValidateAsWritten(st: State, isEmail: string -> bool, normalize: string -> string): (r: State)
    ensures r.users == st.users
    ensures r.req.body == Sanitize(st.req.body, normalize)
    ensures ValidationErrors(r.req.body, isEmail) != [] ==>
      r.req == st.req.(body := r.req.body, control := Stalled)
    ensures ValidationErrors(r.req.body, isEmail) == [] ==>
      r == Validate(st, isEmail, normalize)
  {
    var b := Sanitize(st.req.body, normalize);
    if ValidationErrors(b, isEmail) == [] then st.(req := st.req.(body := b, control := Next))
    else st.(req := st.req.(body := b, control := Stalled))
  }

  /** A zip code the validators accept always casts to a number, but that
      number lies in the schema's range only when the string starts with a
      non-zero digit: "+1234" and "02134" pass the validators and fail the
      schema. */
  lemma ZipCheckAgainstSchema(z: string)
    requires ZipAccepted(z)
    ensures CastZip(Some(z)).ZipNumber?
    ensures ZipInRange(CastZip(Some(z))) <==> !HasSign(z) && !ZeroLed(z)
  {
    FiveCharIntRange(z);
  }

  // ---------------------------------------------------------------------
  // create

  const CreatedMessage := "User has been successfully created"
  const CreateFailedPrefix := "Failed to create user: "

  /** The document `create` builds from the request body. */
  function Candidate(st: State): User
  {
    NewUser(GetUserParams(st.req.body))
  }

  /** The registration `create` attempts for this request. */
  function RegistrationAttempt(st: State, newId: UserId, find: Option<string> -> Lookup, fault: Option<DbFault>)
    : Result<Registered, RegisterError>
  {
    Register(st.users, newId, Candidate(st), Field(st.req.body, "password"), find, fault)
  }

  /** The request checks leave the names unchecked and check the zip code
      only as text, so a request that passes them builds a document the
      schema accepts exactly when both names and the email are given and the
      zip code starts with a non-zero digit. */
  lemma ValidatedBodyMeetsSchema(b: Body, isEmail: string -> bool)
    requires ValidationErrors(b, isEmail) == []
    ensures var z := Text(Field(b, "zipCode"));
      Persistable(NewUser(GetUserParams(b))) <==>
        && Present(Field(b, "first")) && Present(Field(b, "last")) && Present(Field(b, "email"))
        && !HasSign(z) && !ZeroLed(z)
  {
    var z := Text(Field(b, "zipCode"));
    assert ZipAccepted(z);
    assert Field(b, "zipCode") == Some(z);
    ZipCheckAgainstSchema(z);
  }

  /** `create` as written. A skipped request passes straight on. Otherwise
      the user is registered under the body's email; success queues the
      success flash and the redirect to the list but never calls `next`;
      failure queues the error and the redirect to the form and continues. */
  function Create(st: State, newId: UserId, find: Option<string> -> Lookup, fault: Option<DbFault>): (r: State)
    ensures st.req.skip ==> r == st.(req := st.req.(control := Next))
    ensures !st.req.skip ==>
      && |r.req.flashes| == |st.req.flashes| + 1
      && r.req.flashes[..|st.req.flashes|] == st.req.flashes
      && r.req.body == st.req.body
      && r.req.id == st.req.id && r.req.skip == st.req.skip
      && (r.users != st.users <==> r.req.redirect == Some(IndexPath))
      && (r.users != st.users <==> r.req.control == Stalled)
      && (r.users == st.users <==> r.req.redirect == Some(FormPath))
    ensures !st.req.skip && RegistrationAttempt(st, newId, find, fault).Ok? ==>
      && r.users == RegistrationAttempt(st, newId, find, fault).value.users
      && r.req.flashes == st.req.flashes + [Flash(SuccessFlash, CreatedMessage)]
      && r.req.redirect == Some(IndexPath)
      && r.req.control == Stalled
    ensures !st.req.skip && RegistrationAttempt(st, newId, find, fault).Err? ==>
      && r.users == st.users
      && r.req.flashes ==
           st.req.flashes + [Flash(ErrorFlash, CreateFailedPrefix + ErrorMessage(RegistrationAttempt(st, newId, find, fault).error))]
      && r.req.redirect == Some(FormPath)
      && r.req.control == Next
    ensures r.users != st.users ==>
      newId !in st.users && newId in r.users && r.users == st.users[newId := r.users[newId]] && Persistable(r.users[newId])
    ensures Consistent(st.users) ==> Consistent(r.users)
  {
    if st.req.skip then st.(req := st.req.(control := Next))
    else
      match RegistrationAttempt(st, newId, find, fault)
      case Ok(reg) =>
        State(st.req.(
          flashes := st.req.flashes + [Flash(SuccessFlash, CreatedMessage)],
          redirect := Some(IndexPath),
          control := Stalled), reg.users)
      case Err(e) =>
        st.(req := st.req.(
          flashes := st.req.flashes + [Flash(ErrorFlash, CreateFailedPrefix + ErrorMessage(e))],
          redirect := Some(FormPath),
          control := Next))
  }

  /** `create` with `next()` called after a successful registration too: a
      skipped request passes straight on; a registration stores the new user,
      queues the success flash and the redirect to the list; a failure keeps
      the store, queues the error and the redirect to the form; control is
      passed on in every case. */
  function CreateContinuing(st: State, newId: UserId, find: Option<string> -> Lookup, fault: Option<DbFault>): (r: State)
    ensures r.req.control == Next
    ensures r.req.body == st.req.body && r.req.skip == st.req.skip
    ensures st.req.skip ==> r == st.(req := st.req.(control := Next))
    ensures !st.req.skip && RegistrationAttempt(st, newId, find, fault).Ok? ==>
      var reg := RegistrationAttempt(st, newId, find, fault).value;
      && newId !in st.users
      && r.users == st.users[newId := reg.user]
      && reg.user == LinkSubscriber(Candidate(st), find).value
      && r.req.flashes == st.req.flashes + [Flash(SuccessFlash, CreatedMessage)]
      && r.req.redirect == Some(IndexPath)
    ensures !st.req.skip && RegistrationAttempt(st, newId, find, fault).Err? ==>
      && r.users == st.users
      && r.req.flashes ==
           st.req.flashes + [Flash(ErrorFlash, CreateFailedPrefix + ErrorMessage(RegistrationAttempt(st, newId, find, fault).error))]
      && r.req.redirect == Some(FormPath)
    ensures Consistent(st.users) ==> Consistent(r.users)
  {
    var c := Create(st, newId, find, fault);
    c.(req := c.req.(control := Next))
  }

  /** A request whose email is already registered leaves the collection as
      it was and reports the conflict on the form. */
  lemma CreateRejectsTakenEmail(st: State, newId: UserId, find: Option<string> -> Lookup, fault: Option<DbFault>)
    requires !st.req.skip
    requires Present(Field(st.req.body, "email")) && EmailTaken(st.users, Field(st.req.body, "email"))
    requires !(fault.Some? && fault.value.QueryFault?)
    ensures var r := Create(st, newId, find, fault);
      && r.users == st.users
      && r.req.redirect == Some(FormPath)
      && r.req.control == Next
      && r.req.flashes == st.req.flashes + [Flash(ErrorFlash, CreateFailedPrefix + ErrorMessage(UserExists))]
  {
  }

  // ---------------------------------------------------------------------
  // redirectView, logout

  /** `redirectView`: redirect to `res.locals.redirect` when it is set,
      otherwise pass control on. */
  function RedirectView(st: State): (r: State)
    ensures r.users == st.users
    ensures r.req == st.req.(control := r.req.control)
    ensures r.req.control.Redirected? <==> st.req.redirect.Some?
    ensures r.req.control.Redirected? ==> r.req.control.path == st.req.redirect.value
    ensures !r.req.control.Redirected? ==> r.req.control == Next
  {
    match st.req.redirect
    case Some(path) => st.(req := st.req.(control := Redirected(path)))
    case None => st.(req := st.req.(control := Next))
  }

  const LoggedOutMessage := "You have been logged out."

  /** `logout`: the session ends (not modelled), a success flash is queued
      and the redirect goes home. */
  function Logout(st: State): (r: State)
    ensures r.users == st.users
    ensures r.req.flashes == st.req.flashes + [Flash(SuccessFlash, LoggedOutMessage)]
    ensures r.req.redirect == Some(HomePath)
    ensures r.req.control == Next
    ensures r.req.body == st.req.body && r.req.skip == st.req.skip
  {
    st.(req := st.req.(
      flashes := st.req.flashes + [Flash(SuccessFlash, LoggedOutMessage)],
      redirect := Some(HomePath),
      control := Next))
  }

  // ---------------------------------------------------------------------
  // update, delete

  /** The fields `update` reads from the edit form. */
  datatype UserUpdate = UserUpdate(
    name: Name,
    email: Option<string>,
    zipCode: Option<string>,
    password: Option<string>)

  function GetUpdateParams(b: Body): UserUpdate
  {
    UserUpdate(
      Name(Field(b, "firstName"), Field(b, "lastName")),
      Field(b, "email"),
      Field(b, "zipCode"),
      Field(b, "password"))
  }

  /** The stored document after `findByIdAndUpdate`: the name, email and zip
      code are replaced; the password is not a schema path and is dropped;
      the subscriber link is kept, since the pre-save hook does not run. */
  function ApplyUpdate(u: User, upd: UserUpdate): (v: User)
    ensures v.subscribedAccount == u.subscribedAccount
    ensures v.name == upd.name && v.email == upd.email
    ensures v.zipCode == CastZip(upd.zipCode)
  {
    u.(name := upd.name, email := upd.email, zipCode := CastZip(upd.zipCode))
  }

  /** Another stored user than `id` has this email. */
  predicate EmailTakenByOther(s: Store, id: UserId, e: Option<string>)
  {
    exists k :: k in s && k != id && s[k].email == e
  }

  /** `update`. A skipped request passes straight on. Otherwise the update
      is cast (an uncastable zip code rejects it), sent to the database
      (which may fail as `fault` says), applied to the document with the
      route's id (a missing document makes the callback read `_id` of null
      and fail), and refused by the unique email index on a clash. On
      success the redirect goes to the user's page. Schema validators do not
      run on this path. */
  function Update(st: State, fault: Option<string>): (r: State)
    ensures st.req.skip ==> r == st.(req := st.req.(control := Next))
    ensures r.req.body == st.req.body && r.req.flashes == st.req.flashes
    ensures r.req.id == st.req.id && r.req.skip == st.req.skip
    ensures r.req.control.NextError? ==> r.users == st.users && r.req.redirect == st.req.redirect
    ensures !st.req.skip ==> r.req.control.Next? || r.req.control.NextError?
    ensures !st.req.skip && r.req.control.Next? ==>
      && st.req.id in st.users
      && r.users == st.users[st.req.id := ApplyUpdate(st.users[st.req.id], GetUpdateParams(st.req.body))]
      && r.req.redirect == Some(IndexPath + "/" + st.req.id)
    ensures !st.req.skip && CastZip(GetUpdateParams(st.req.body).zipCode).ZipUncastable? ==>
      r.req.control == NextError(CastFailed)
    ensures !st.req.skip && !CastZip(GetUpdateParams(st.req.body).zipCode).ZipUncastable? && fault.Some? ==>
      r.req.control == NextError(StoreFault(fault.value))
    ensures !st.req.skip && fault.None? && !CastZip(GetUpdateParams(st.req.body).zipCode).ZipUncastable?
            && st.req.id !in st.users ==>
      r.req.control == NextError(NotFound)
    ensures !st.req.skip && fault.None? && !CastZip(GetUpdateParams(st.req.body).zipCode).ZipUncastable?
            && st.req.id in st.users ==>
      r.req.control == (if EmailTakenByOther(st.users, st.req.id, GetUpdateParams(st.req.body).email)
                        then NextError(DuplicateEmail) else Next)
  {
    if st.req.skip then st.(req := st.req.(control := Next))
    else
      var upd := GetUpdateParams(st.req.body);
      if CastZip(upd.zipCode).ZipUncastable? then st.(req := st.req.(control := NextError(CastFailed)))
      else if fault.Some? then st.(req := st.req.(control := NextError(StoreFault(fault.value))))
      else if st.req.id !in st.users then st.(req := st.req.(control := NextError(NotFound)))
      else
        var v := ApplyUpdate(st.users[st.req.id], upd);
        if EmailTakenByOther(st.users, st.req.id, v.email) then
          st.(req := st.req.(control := NextError(DuplicateEmail)))
        else
          State(st.req.(redirect := Some(IndexPath + "/" + st.req.id), control := Next),
                st.users[st.req.id := v])
  }

  /** `update` never touches a subscriber link and keeps emails unique. */
  lemma UpdateKeepsLinksAndUniqueness(st: State, fault: Option<string>)
    requires EmailsUnique(st.users)
    ensures var r := Update(st, fault);
      && r.users.Keys == st.users.Keys
      && (forall k :: k in r.users ==> r.users[k].subscribedAccount == st.users[k].subscribedAccount)
      && EmailsUnique(r.users)
  {
  }

  /** Because `update` runs no schema validators, a stored user can lose its
      required name through it. */
  lemma UpdateBypassesSchema()
    ensures var u := User(Name(Some("Ann"), Some("Lee")), Some("ann@x.com"), ZipNumber(30301), None);
      var st := State(Req(map["email" := "ann@x.com"], "u1", false, [], None, Next), map["u1" := u]);
      var r := Update(st, None);
      && Consistent(st.users)
      && r.req.control == Next
      && !Persistable(r.users["u1"])
  {
  }

  /** `delete`: removes the document with the route's id (a missing one is
      not an error) and redirects to the list, unless the database fails. */
  function Delete(st: State, fault: Option<string>): (r: State)
    ensures r.req.body == st.req.body && r.req.flashes == st.req.flashes
    ensures r.req.id == st.req.id && r.req.skip == st.req.skip
    ensures fault.Some? ==>
      r.users == st.users && r.req.control == NextError(StoreFault(fault.value)) && r.req.redirect == st.req.redirect
    ensures fault.None? ==>
      && st.req.id !in r.users
      && (forall k :: k in st.users && k != st.req.id ==> k in r.users && r.users[k] == st.users[k])
      && r.users.Keys <= st.users.Keys
      && r.req.redirect == Some(IndexPath)
      && r.req.control == Next
    ensures Consistent(st.users) ==> Consistent(r.users)
  {
    match fault
    case Some(msg) => st.(req := st.req.(control := NextError(StoreFault(msg))))
    case None =>
      State(st.req.(redirect := Some(IndexPath), control := Next), st.users - {st.req.id})
  }
}
